=== FILE: README.md ===
# Volleyball scoreboard match state, in Dafny

This project models the match state machine of the volleyball scoreboard page
(`docs/js/scripts.js`): one `gameState` record changed by a small set of
handlers. The handlers are:

- scoring a point, with the 25-point, two-point-lead set rule;
- taking a time-out;
- undoing the last score or time-out from a LIFO stack of undo records;
- moving to the next set;
- answering the third-set serve dialog;
- renaming the teams;
- resetting the match.

Each handler is a pure Dafny function from one `MatchState` to the next. The
DOM updates inside the handlers are dropped.

Modules:

- `Wrappers`: `Option`, standing in for `null`.
- `Rotation`: the fixed six-slot serve/toss ring. It covers `advanceSequence`,
  the `indexOf` lookups of "Home Team Serves" (index 0) and "Away Team Serves"
  (index 3), and the ring's period-six laws.
- `Scoreboard`: the state record, the audit-log rows and undo records, and
  every handler.
- `UndoLaws`: undo reverses a point or a time-out exactly. It also shows what
  happens when the team names coincide or change before the undo.
- `Invariants`: the invariants the state keeps while the page drives it. The
  page is modelled as a `Screen`: the state plus whether the serve dialog is
  open. Only enabled controls have an effect. `Run` is proved to reach only
  sound screens.
- `Scenarios`: a 25-0 set from a fresh page, a set decided from 24-24, and
  the rotation at the start of set 2.

Behaviour of the code worth knowing:

- The time-out handler does not check the per-set quota. Only the disabled
  button, set in `updateTimeoutDisplay`, keeps the count at or below 2. So the
  quota appears as a gate on `TimeoutPressed` in `Invariants.Enabled`, not
  inside `Scoreboard.Timeout`.
- `startNextSet` has no guard on `isSetOver`. Only the next-set button is
  gated.
- The score undo record stores `isSetOver` as read after the set check, not
  before it. Undo first restores that value and then clears it again when the
  point had won the set.
- Undo finds the set count to decrement by comparing `winningTeam` with the
  teams' current names. So `Undo(Score(s, t)) == s` needs two distinct names
  that do not change in between. `UndoWithSharedNameDebitsHome` and
  `UndoAfterRenameKeepsSet` show what happens otherwise.

## Model

| member | source | states |
|---|---|---|
| Rotation.Sequences | docs/js/scripts.js:23-30 | the six-slot serve rotation in source order: home serves, away tosses, home tosses, away serves, home tosses, away tosses |
| Rotation.RingRem | docs/js/scripts.js:171 | JavaScript's truncating `%` by the ring size: strictly inside (-6, 6), equal to Dafny's `%` for non-negative dividends, never positive for non-positive ones, and congruent to the dividend |
| Rotation.IndexOf | docs/js/scripts.js:463 | `indexOf`: -1 exactly when the slot is absent, otherwise an in-range position holding the slot with no earlier occurrence |
| Rotation.HomeServesIndex | docs/js/scripts.js:470 | the lookup of "Home Team Serves" gives a ring index whose slot is the home side serving, and it is the first such slot |
| Rotation.AwayServesIndex | docs/js/scripts.js:463 | the lookup of "Away Team Serves" gives a ring index whose slot is the away side serving, and it is the first such slot |
| Rotation.ServeIndices | docs/js/scripts.js:23-30 | in the fixed rotation, the home side first serves at index 0 and the away side at index 3 |
| Rotation.Advance | docs/js/scripts.js:170-173 | one step from a non-negative index stays in the ring, moves to the next entry, and wraps from the last entry to 0 |
| Rotation.AdvanceWithinTurn | docs/js/scripts.js:171 | up to six steps from a ring index land at i + n, wrapped back by 6 once it passes the end |
| Rotation.AdvanceNAdds | docs/js/scripts.js:171 | m steps followed by n steps equal m + n steps |
| Rotation.SixStepsReturn | docs/js/scripts.js:171 | six consecutive steps return to the starting index |
| Rotation.SixStepsDistinct | docs/js/scripts.js:171 | the six indices visited in one turn are pairwise different |
| Rotation.RotationPeriodic | docs/js/scripts.js:171 | from any ring index, stepping stays in the ring and repeats with period six |
| Rotation.StepAlternatesSides | docs/js/scripts.js:23-30 | every step hands the start of the rally to the other side |
| Scoreboard.Initial | docs/js/scripts.js:4-31 | the start-up state: default names and colours, no points, sets or time-outs, set 1, point 1, rotation index 0, empty log and undo stack, no winner |
| Scoreboard.CheckSetWin | docs/js/scripts.js:291-311 | the set is won exactly when max(home, away) >= 25 and the lead is at least 2; the team ahead then gets one more set and is recorded by name as the winner; the other team's count and all other fields are unchanged; with no win nothing changes |
| Scoreboard.Score | docs/js/scripts.js:213-288 | ignored once the set is over; otherwise the scorer gets exactly one point and the opponent none, `isSetOver` holds exactly when the set rule holds, the point number rises by 1, exactly one undo record is pushed and earlier records are kept, one log row (two when the set ends) is appended after the existing rows, and the rotation steps once only when the set goes on, staying in the ring. Names, colours, set number and time-out counts are unchanged. A point that leaves the set running keeps both set counts and `winningTeam`. A point that ends it credits the team ahead with one set, leaves the other team's count alone, and records the leader's name as the winner |
| Scoreboard.ScoreLogRows | docs/js/scripts.js:233-254 | the point row holds the set number, the point number before the point, the slot the rally started from, the scorer and the score after the point; a set-win row naming the winner, with the final score, follows it and comes last |
| Scoreboard.Timeout | docs/js/scripts.js:314-365 | ignored once the set is over; otherwise the team's time-out count rises by one and the other team's stays, one time-out row and one time-out record carrying the new count are appended, and nothing else changes (no quota check) |
| Scoreboard.UndoScore | docs/js/scripts.js:394-425 | reversing a score record: the recorded value comes off the recorded team only; the index and point number are restored; `isSetOver` becomes the recorded value unless the point won the set; one log row is dropped, or two for a set win; for a set win, the team whose current name equals `winningTeam` loses one set (neither when no name matches) and the winner is cleared |
| Scoreboard.UndoTimeout | docs/js/scripts.js:426-438 | reversing a time-out record drops the last log row and lowers only that team's time-out count by one |
| Scoreboard.Undo | docs/js/scripts.js:386-441 | with no undo record nothing changes; otherwise exactly the top record is popped |
| Scoreboard.StartNextSet | docs/js/scripts.js:449-483 | next set number; scores, time-outs and the undo stack cleared; point number 1; the set reopened with no winner; the away side serves first in set 2, set 3 keeps the index, and every other set starts with the home side serving; log, set counts, names and colours kept |
| Scoreboard.ChooseServe | docs/js/scripts.js:486-506 | the serve dialog restarts the rotation at the first slot in which the chosen side serves (home when dismissed) and changes nothing else |
| Scoreboard.OrDefault | docs/js/scripts.js:72-75 | an empty form field falls back to the default value, and a non-empty one is kept as entered |
| Scoreboard.SetTeamNames | docs/js/scripts.js:71-76 | names are never empty; given names are kept and empty ones become "Home Team"/"Away Team"; colours follow the same rule; scores, sets, rotation, histories and every other field are untouched |
| Scoreboard.Reset | docs/js/scripts.js:514-543 | the reset literal equals the start-up state, whatever the state was before |
| Scoreboard.DropLast | docs/js/scripts.js:404 | `pop`: removes exactly the last element of a non-empty array and leaves an empty one unchanged |
| UndoLaws.ClinchingPointGoesToScorer | docs/js/scripts.js:213-311 | if the set rule did not already hold, a point that ends the set credits it to the scorer; the winner's name is recorded, the other team's set count is unchanged, and the last log row announces that winner |
| UndoLaws.ScorePushesRecord | docs/js/scripts.js:256-266 | a point pushes exactly one score record after the existing ones. It holds the team, value 1, and the index and point number from before the point. Its stored `isSetOver` is the value after the point, so it equals `setWon`, and both are true exactly for the point that ends the set |
| UndoLaws.UndoInvertsRunningPoint | docs/js/scripts.js:392-421 | undo exactly reverses a point that does not end the set |
| UndoLaws.UndoInvertsClinchingPoint | docs/js/scripts.js:392-421 | with distinct names and no winner recorded before, undo exactly reverses a set-winning point, including the winner's set count, `isSetOver`, `winningTeam` and both log rows |
| UndoLaws.UndoInvertsScore | docs/js/scripts.js:392-421 | from a running set with distinct, unchanged names, undo after a point gives back the same state in every field; a set-winning point adds two log rows, which undo removes |
| UndoLaws.UndoInvertsTimeout | docs/js/scripts.js:426-434 | undo after a time-out in a running set gives back the same state in every field |
| UndoLaws.UndoWithSharedNameDebitsHome | docs/js/scripts.js:406-411 | when both teams share a name, undoing the away team's set-winning point takes a set from the home team and leaves the away team's credit |
| UndoLaws.UndoAfterRenameKeepsSet | docs/js/scripts.js:406-414 | renaming the teams after a set-winning point, to names other than the recorded winner, makes undo reopen the set while the set total stays one higher |
| Invariants.InitialSound | docs/js/scripts.js:4-31 | the start-up state satisfies the invariant and has an empty, explained undo stack |
| Invariants.ScoreKeepsValid | docs/js/scripts.js:213-311 | scoring keeps the counters, the set-over/winner/set-rule equivalences, the index range and the log/stack length relation |
| Invariants.ScoreSound | docs/js/scripts.js:213-288 | scoring keeps the invariant and pushes a record that undo explains |
| Invariants.TimeoutSound | docs/js/scripts.js:99-106 | a time-out taken while its button is enabled (set running, fewer than 2 used) keeps the invariant, including the 0..2 bound |
| Invariants.UndoSound | docs/js/scripts.js:386-441 | undo from a sound state gives a sound state |
| Invariants.NextSetSound | docs/js/scripts.js:449-483 | the set transition gives a sound state |
| Invariants.ValidUnderIndex | docs/js/scripts.js:486-506 | moving the index within the ring keeps the state-local invariant |
| Invariants.ServeChoiceSound | docs/js/scripts.js:486-506 | answering the serve dialog, which is open only with an empty undo stack, keeps the invariant |
| Invariants.ScoreIgnoresNames | docs/js/scripts.js:213-288 | renaming commutes with a point that leaves the set running, on every field of the model. The page's row text does carry the names, which the model's `Team`-tagged rows leave out |
| Invariants.TimeoutIgnoresNames | docs/js/scripts.js:314-365 | renaming commutes with a time-out, on every field of the model. The page's row text does carry the names, which the model's `Team`-tagged rows leave out |
| Invariants.RunningPointRecord | docs/js/scripts.js:256-266 | a point that leaves the set running pushes a score record not marked as set-winning |
| Invariants.UndoScoreIgnoresNames | docs/js/scripts.js:394-421 | renaming commutes with reversing a score record that did not win the set |
| Invariants.UndoIgnoresNames | docs/js/scripts.js:386-441 | renaming commutes with undoing a record that did not win the set |
| Invariants.TracedUnderRename | docs/js/scripts.js:71-76 | renaming during a running set, to two different names, keeps every undo record explained |
| Invariants.RenameSound | docs/js/scripts.js:71-76 | such a renaming keeps the invariant |
| Invariants.ResetSound | docs/js/scripts.js:514-543 | reset gives a sound state from any state |
| Invariants.Enabled | docs/js/scripts.js:99-106 | which controls can fire: time-out buttons only while the set runs and fewer than 2 are used, the next-set button only while the set is over, renaming only while the set runs and only to two different resulting names, and only the dialog's answers while the serve dialog is open |
| Invariants.Step | docs/js/scripts.js:367-511 | the listener dispatch: moving to set 3 opens the serve dialog, answering it closes it, and no other control opens or closes it |
| Invariants.StepSound | docs/js/scripts.js:367-511 | every enabled control keeps a sound screen sound |
| Invariants.Run | docs/js/scripts.js:367-511 | every screen reached from a fresh page by any sequence of presses (disabled controls doing nothing) is sound |
| Invariants.ReachableInvariants | docs/js/scripts.js:99-106 | on every reachable screen: time-outs used stay within 0..2; a finished set has a winner, a lead of at least 2 and at least 25 points; the log is never shorter than the undo stack; the index stays in [0, 6) |
| Invariants.TimeoutIgnoresQuota | docs/js/scripts.js:314-322 | the handler itself counts a third time-out in a running set: it has no quota check |
| Invariants.ThirdTimeoutPressIgnored | docs/js/scripts.js:99-106 | on a reachable screen, pressing a team's time-out button after two time-outs changes nothing, because the button is disabled |
| Invariants.ReachableUndoInverts | docs/js/scripts.js:386-441 | on every reachable screen with the set running, undo exactly reverses a point or a time-out |
| Scenarios.ScoreTimes | docs/js/scripts.js:213-288 | repeated scoring from a ring index keeps the index in the ring |
| Scenarios.HomeRunBelowTwentyFive | docs/js/scripts.js:213-288 | from a fresh page, up to 24 straight home points leave the set running; each point adds one log row, one undo record, one point number and one rotation step |
| Scenarios.HomeWinsTwentyFiveNil | docs/js/scripts.js:291-311 | the 25th straight home point ends the set: home 1 set, winner "Home Team", 26 log rows |
| Scenarios.DeuceNeedsTwoPointLead | docs/js/scripts.js:295-296 | from 24-24 a single point keeps the set running and a second point for the same team ends it at 26-24 |
| Scenarios.SecondSetStartsWithAwayServe | docs/js/scripts.js:461-464 | leaving set 1 clears scores and time-outs and starts set 2 at index 3, the away side serving |

## Left out

- DOM reads and writes are not modelled: text content, styles, disabled flags, the history table rendering (`updateHistory`) and the other display helpers. They are presentation only. The disabled flags that matter appear as the gates of `Invariants.Enabled`.
- `loadGameState` and `saveGameState` (`localStorage`, JSON) are not modelled. They are foreign I/O with no schema logic, so the persistence round trip is not modelled either.
- `getContrastingTextColor` is not modelled: it is floating-point luminance over parsed hex strings. Colours are opaque strings.
- The display text of log rows and of the rotation (`String.replace` of "Home Team"/"Away Team") is not modelled. Rows carry tagged outcomes and rotation slots instead.
- `alert` and `confirm` are not modelled. Only the confirmed reset is.
- Scoreboard.Score: a team argument other than 'home'/'away' is not modelled; the page never passes one.
- Scoreboard.Score: the `TypeError` the page would raise on an out-of-range rotation index is not modelled. It is excluded by the precondition, and `Invariants.Run` shows the index never leaves the ring.
- Invariants.Run: proved only for runs that rename the teams while a set is running and keep the two names different. The page allows renaming at any time, and `UndoLaws.UndoWithSharedNameDebitsHome` and `UndoLaws.UndoAfterRenameKeepsSet` show how undo goes wrong otherwise.
- Invariants.Enabled: assumes the open serve dialog covers the page, so only its own buttons and its backdrop can be clicked until it closes.
- Invariants.ReachableInvariants: proved only for the runs of `Invariants.Run`, where renaming is restricted. None of its facts reads a team name, but the proof goes through the undo-record invariant, and that invariant needs the restriction.
- Invariants.ReachableUndoInverts: proved only for the runs of `Invariants.Run`. On the real page, where renaming is free, it fails when both teams share a name (`UndoLaws.UndoWithSharedNameDebitsHome`).
- Invariants.Enabled: assumes the next-set button starts disabled in the page's markup. The script itself sets that button only when a set is won, when that win is undone, on the next set and on reset.
- Log rows written before a rename keep the old names on the page, because their text is fixed when the row is logged. The model's rows carry `Team` tags, so renaming cannot change them, and this is why renaming commutes with a point or a time-out in the model.

=== FILE: invariants.dfy ===
/** The invariants the scoreboard keeps while it is driven through its page:
    a state-local validity condition, plus the fact that every undo record on
    the stack really is the last score or time-out, so that undo always lands
    in a state the page could have reached. */
module Invariants {
  import opened Wrappers
  import opened Rotation
  import opened Scoreboard
  import opened UndoLaws

  /** The state-local invariant: counters within their ranges, `isSetOver`
      exactly when the set rule holds, a winner recorded exactly while the set
      is over (the team ahead), the rotation index in the ring, at least as
      many log rows as undo records, and two distinct, non-empty team names. */
  predicate Valid(s: MatchState) {
    && s.homeTeam != "" && s.awayTeam != "" && s.homeTeam != s.awayTeam
    && 0 <= s.homeScore && 0 <= s.awayScore
    && 0 <= s.homeSetsWon && 0 <= s.awaySetsWon
    && 1 <= s.currentSet && 1 <= s.pointNumber
    && 0 <= s.homeTimeoutsUsed <= MaxTimeoutsPerSet
    && 0 <= s.awayTimeoutsUsed <= MaxTimeoutsPerSet
    && InRing(s.sequenceIndex)
    && (s.isSetOver <==> IsWinningScore(s.homeScore, s.awayScore))
    && (s.isSetOver <==> s.winningTeam.Some?)
    && (s.isSetOver ==> s.winningTeam == Some(Name(s, Leader(s.homeScore, s.awayScore))))
    && |s.sequenceHistory| >= |s.actionHistory|
  }

  /** Every undo record on the stack is explained by the state below it: undoing
      it gives a valid, still-running state from which the recorded score or
      time-out leads back to exactly this state. */
  predicate Traced(s: MatchState)
    decreases |s.actionHistory|
  {
    if |s.actionHistory| == 0 then true
    else
      var p := Undo(s);
      && Valid(p) && !p.isSetOver && Traced(p)
      && match s.actionHistory[|s.actionHistory| - 1]
         case ScoreAction(t, _, _, _, _, _) => Score(p, t) == s
         case TimeoutAction(t, _) => Timeout(p, t) == s
  }

  predicate Sound(s: MatchState) {
    Valid(s) && Traced(s)
  }

  /** A state whose top record is a point for `t`, and which that point
      reaches from its undo, is traced when the undo is. */
  lemma TracedByScore(p: MatchState, r: MatchState, t: Team)
    requires |r.actionHistory| > 0
    requires r.actionHistory[|r.actionHistory| - 1].ScoreAction?
    requires r.actionHistory[|r.actionHistory| - 1].team == t
    requires Undo(r) == p && Valid(p) && !p.isSetOver && Traced(p)
    requires Score(p, t) == r
    ensures Traced(r)
  {
  }

  /** The same for a time-out. */
  lemma TracedByTimeout(p: MatchState, r: MatchState, t: Team)
    requires |r.actionHistory| > 0
    requires r.actionHistory[|r.actionHistory| - 1].TimeoutAction?
    requires r.actionHistory[|r.actionHistory| - 1].team == t
    requires Undo(r) == p && Valid(p) && !p.isSetOver && Traced(p)
    requires Timeout(p, t) == r
    ensures Traced(r)
  {
  }

  lemma InitialSound()
    ensures Sound(Initial)
  {
  }

  /** Scoring keeps the state-local invariant. */
  lemma ScoreKeepsValid(s: MatchState, team: Team)
    requires Valid(s)
    ensures Valid(Score(s, team))
  {
    if !s.isSetOver {
      var r := Score(s, team);
      var checked := CheckSetWin(AddPoint(s, team));
      assert r.homeTeam == s.homeTeam && r.awayTeam == s.awayTeam;
      if checked.1 {
        assert r.winningTeam == checked.0.winningTeam;
      }
    }
  }

  lemma ScoreSound(s: MatchState, team: Team)
    requires Sound(s)
    ensures Sound(Score(s, team))
  {
    ScoreKeepsValid(s, team);
    if !s.isSetOver {
      var r := Score(s, team);
      UndoInvertsScore(s, team);
      ScorePushesRecord(s, team);
      TracedByScore(s, r, team);
    }
  }

  /** A time-out taken while the button is enabled keeps the invariant. */
  lemma TimeoutSound(s: MatchState, team: Team)
    requires Sound(s)
    requires !s.isSetOver && TimeoutsUsed(s, team) < MaxTimeoutsPerSet
    ensures Sound(Timeout(s, team))
  {
    UndoInvertsTimeout(s, team);
    var r := Timeout(s, team);
    TracedByTimeout(s, r, team);
  }

  lemma UndoSound(s: MatchState)
    requires Sound(s)
    ensures Sound(Undo(s))
  {
  }

  lemma NextSetSound(s: MatchState)
    requires Sound(s)
    ensures Sound(StartNextSet(s))
  {
  }

  /** The serve choice only comes up right after a set transition, when the
      undo stack is empty. */
  lemma ServeChoiceSound(s: MatchState, c: ServeChoice)
    requires Sound(s) && |s.actionHistory| == 0
    ensures Sound(ChooseServe(s, c))
  {
    var r := ChooseServe(s, c);
    var i := r.sequenceIndex;
    assert r == s.(sequenceIndex := i);
    ValidUnderIndex(s, i);
    assert Traced(r);
  }

  /** Moving the rotation index within the ring keeps the state-local
      invariant. */
  lemma ValidUnderIndex(s: MatchState, i: int)
    requires Valid(s) && InRing(i)
    ensures Valid(s.(sequenceIndex := i))
  {
  }

  /** Renaming commutes with a point that does not end the set. The page does
      write the current names into the point row's text, but this model logs
      a `Team` tag instead, and apart from that text such a point does not use
      the names. */
  lemma ScoreIgnoresNames(p: MatchState, team: Team, home: string, away: string,
                          homeColor: string, awayColor: string)
    requires !p.isSetOver && InRing(p.sequenceIndex)
    requires !Score(p, team).isSetOver
    ensures Score(SetTeamNames(p, home, away, homeColor, awayColor), team)
         == SetTeamNames(Score(p, team), home, away, homeColor, awayColor)
  {
    var checked := CheckSetWin(AddPoint(p, team));
    assert !checked.1;
  }

  /** Renaming commutes with a time-out. As for a point, the page's row text
      carries the names, and the model's row carries a `Team` tag instead. */
  lemma TimeoutIgnoresNames(p: MatchState, team: Team, home: string, away: string,
                            homeColor: string, awayColor: string)
    ensures Timeout(SetTeamNames(p, home, away, homeColor, awayColor), team)
         == SetTeamNames(Timeout(p, team), home, away, homeColor, awayColor)
  {
  }

  /** A point that leaves the set running pushes a record that is not marked
      as set-winning. */
  lemma RunningPointRecord(p: MatchState, team: Team)
    requires !p.isSetOver && InRing(p.sequenceIndex)
    requires !Score(p, team).isSetOver
    ensures var r := Score(p, team);
      r.actionHistory[|r.actionHistory| - 1].ScoreAction?
      && !r.actionHistory[|r.actionHistory| - 1].setWon
  {
    ScorePushesRecord(p, team);
  }

  /** Renaming commutes with reversing a point that did not win a set. */
  lemma UndoScoreIgnoresNames(s: MatchState, a: Action, home: string, away: string,
                              homeColor: string, awayColor: string)
    requires a.ScoreAction? && !a.setWon
    ensures UndoScore(SetTeamNames(s, home, away, homeColor, awayColor), a)
         == SetTeamNames(UndoScore(s, a), home, away, homeColor, awayColor)
  {
  }

  /** Renaming commutes with undoing a record that did not win a set: the
      names are compared only when undoing a set-winning point. */
  lemma UndoIgnoresNames(s: MatchState, home: string, away: string,
                         homeColor: string, awayColor: string)
    requires |s.actionHistory| > 0
    requires var a := s.actionHistory[|s.actionHistory| - 1];
      a.ScoreAction? ==> !a.setWon
    ensures Undo(SetTeamNames(s, home, away, homeColor, awayColor))
         == SetTeamNames(Undo(s), home, away, homeColor, awayColor)
  {
    var a := s.actionHistory[|s.actionHistory| - 1];
    var popped := s.(actionHistory := DropLast(s.actionHistory));
    var n := SetTeamNames(s, home, away, homeColor, awayColor);
    assert n.(actionHistory := DropLast(n.actionHistory))
        == SetTeamNames(popped, home, away, homeColor, awayColor);
    if a.ScoreAction? {
      UndoScoreIgnoresNames(popped, a, home, away, homeColor, awayColor);
    }
  }

  /** Renaming both teams while the set is running keeps every undo record
      explained, because no record on the stack then comes from a set-winning
      point. */
  lemma {:induction false} TracedUnderRename(s: MatchState, home: string, away: string,
                                             homeColor: string, awayColor: string)
    requires Traced(s) && !s.isSetOver
    requires OrDefault(home, DefaultHomeName) != OrDefault(away, DefaultAwayName)
    ensures Traced(SetTeamNames(s, home, away, homeColor, awayColor))
    decreases |s.actionHistory|
  {
    if |s.actionHistory| > 0 {
      var p := Undo(s);
      var s' := SetTeamNames(s, home, away, homeColor, awayColor);
      var p' := SetTeamNames(p, home, away, homeColor, awayColor);
      var a := s.actionHistory[|s.actionHistory| - 1];
      assert Valid(p) && !p.isSetOver && Traced(p);
      TracedUnderRename(p, home, away, homeColor, awayColor);
      assert Valid(p');
      match a {
        case ScoreAction(t, _, _, _, _, _) =>
          assert Score(p, t) == s;
          RunningPointRecord(p, t);
          UndoIgnoresNames(s, home, away, homeColor, awayColor);
          ScoreIgnoresNames(p, t, home, away, homeColor, awayColor);
          assert Score(p', t) == s';
        case TimeoutAction(t, _) =>
          assert Timeout(p, t) == s;
          UndoIgnoresNames(s, home, away, homeColor, awayColor);
          TimeoutIgnoresNames(p, t, home, away, homeColor, awayColor);
          assert Timeout(p', t) == s';
      }
      assert s'.actionHistory[|s'.actionHistory| - 1] == a;
    }
  }

  /** Renaming while the set is running, to two different names, keeps the
      invariant. */
  lemma RenameSound(s: MatchState, home: string, away: string, homeColor: string, awayColor: string)
    requires Sound(s) && !s.isSetOver
    requires OrDefault(home, DefaultHomeName) != OrDefault(away, DefaultAwayName)
    ensures Sound(SetTeamNames(s, home, away, homeColor, awayColor))
  {
    TracedUnderRename(s, home, away, homeColor, awayColor);
  }

  lemma ResetSound(s: MatchState)
    ensures Sound(Reset(s))
  {
  }

  /** The page's controls. */
  datatype Control =
    | ScorePressed(team: Team)
    | TimeoutPressed(team: Team)
    | UndoPressed
    | NextSetPressed
    | ServeAnswered(choice: ServeChoice)
    | NamesSubmitted(home: string, away: string, homeColor: string, awayColor: string)
    | ResetConfirmed

  /** The match state together with whether the third-set serve dialog is
      open. The open dialog covers the page, so only its own answers reach the
      state then. */
  datatype Screen = Screen(game: MatchState, choosingServe: bool)

  const Start: Screen := Screen(Initial, false)

  /** Which controls can fire. Time-out buttons are disabled once a team has
      used its time-outs or the set is over; the next-set button is enabled
      only while the set is over. Renaming is restricted, as an assumption of
      this model rather than a rule of the page, to a running set and to two
      different resulting names. */
  predicate Enabled(sc: Screen, c: Control) {
    var g := sc.game;
    if sc.choosingServe then c.ServeAnswered?
    else
      match c
      case ScorePressed(_) => true
      case TimeoutPressed(t) => !g.isSetOver && TimeoutsUsed(g, t) < MaxTimeoutsPerSet
      case UndoPressed => true
      case NextSetPressed => g.isSetOver
      case ServeAnswered(_) => false
      case NamesSubmitted(h, a, _, _) =>
        !g.isSetOver && OrDefault(h, DefaultHomeName) != OrDefault(a, DefaultAwayName)
      case ResetConfirmed => true
  }

  /** What a control does. Moving to set 3 opens the serve dialog, answering
      it closes the dialog, and no other control opens or closes it. */
  function Step(sc: Screen, c: Control): (r: Screen)
    requires InRing(sc.game.sequenceIndex)
    ensures c.NextSetPressed? ==> (r.choosingServe <==> sc.choosingServe || sc.game.currentSet + 1 == 3)
    ensures c.ServeAnswered? ==> !r.choosingServe
    ensures !c.NextSetPressed? && !c.ServeAnswered? ==> r.choosingServe == sc.choosingServe
  {
    var g := sc.game;
    match c
    case ScorePressed(t) => Screen(Score(g, t), sc.choosingServe)
    case TimeoutPressed(t) => Screen(Timeout(g, t), sc.choosingServe)
    case UndoPressed => Screen(Undo(g), sc.choosingServe)
    case NextSetPressed =>
      var n := StartNextSet(g);
      Screen(n, sc.choosingServe || n.currentSet == 3)
    case ServeAnswered(choice) => Screen(ChooseServe(g, choice), false)
    case NamesSubmitted(h, a, hc, ac) => Screen(SetTeamNames(g, h, a, hc, ac), sc.choosingServe)
    case ResetConfirmed => Screen(Reset(g), sc.choosingServe)
  }

  predicate ScreenSound(sc: Screen) {
    Sound(sc.game) && (sc.choosingServe ==> |sc.game.actionHistory| == 0)
  }

  lemma StepSound(sc: Screen, c: Control)
    requires ScreenSound(sc) && Enabled(sc, c)
    ensures ScreenSound(Step(sc, c))
  {
    var g := sc.game;
    match c
    case ScorePressed(t) => ScoreSound(g, t);
    case TimeoutPressed(t) => TimeoutSound(g, t);
    case UndoPressed => UndoSound(g);
    case NextSetPressed => NextSetSound(g);
    case ServeAnswered(choice) => ServeChoiceSound(g, choice);
    case NamesSubmitted(h, a, hc, ac) => RenameSound(g, h, a, hc, ac);
    case ResetConfirmed => ResetSound(g);
  }

  /** The screen after pressing `cs` in order from a fresh page; a press on a
      disabled control does nothing. Every screen reached this way is sound. */
  function Run(cs: seq<Control>): (sc: Screen)
    ensures ScreenSound(sc)
  {
    if |cs| == 0 then
      InitialSound();
      Start
    else
      var prev := Run(cs[..|cs| - 1]);
      var c := cs[|cs| - 1];
      if Enabled(prev, c) then
        StepSound(prev, c);
        Step(prev, c)
      else prev
  }

  /** The invariants of the match state hold on every reachable screen: the
      time-out counts stay within 0..2, a finished set has a winner, a lead of
      at least 2 and at least 25 points, the log is never shorter than the undo
      stack, and the rotation index stays in the ring. */
  lemma ReachableInvariants(cs: seq<Control>)
    ensures var g := Run(cs).game;
      && 0 <= g.homeTimeoutsUsed <= MaxTimeoutsPerSet
      && 0 <= g.awayTimeoutsUsed <= MaxTimeoutsPerSet
      && (g.isSetOver ==>
            g.winningTeam.Some? && Abs(g.homeScore - g.awayScore) >= 2
            && Max(g.homeScore, g.awayScore) >= 25)
      && |g.sequenceHistory| >= |g.actionHistory|
      && 0 <= g.sequenceIndex < 6
  {
  }

  /** The time-out handler itself does not enforce the quota: a third time-out
      in a running set is counted. */
  lemma TimeoutIgnoresQuota(s: MatchState, team: Team)
    requires !s.isSetOver && TimeoutsUsed(s, team) == MaxTimeoutsPerSet
    ensures TimeoutsUsed(Timeout(s, team), team) == MaxTimeoutsPerSet + 1
  {
  }

  /** On the page, a third time-out press in a set does nothing, because the
      button is disabled once two are used. */
  lemma ThirdTimeoutPressIgnored(cs: seq<Control>, team: Team)
    requires TimeoutsUsed(Run(cs).game, team) == MaxTimeoutsPerSet
    ensures Run(cs + [TimeoutPressed(team)]) == Run(cs)
  {
    assert (cs + [TimeoutPressed(team)])[..|cs|] == cs;
  }

  /** On every reachable screen, undo reverses a point or a time-out exactly. */
  lemma ReachableUndoInverts(cs: seq<Control>, team: Team)
    requires !Run(cs).game.isSetOver
    ensures Undo(Score(Run(cs).game, team)) == Run(cs).game
    ensures Undo(Timeout(Run(cs).game, team)) == Run(cs).game
  {
    var g := Run(cs).game;
    UndoInvertsScore(g, team);
    UndoInvertsTimeout(g, team);
  }
}

=== FILE: rotation.dfy ===
/** The serve/toss rotation: a fixed ring of six slots, each naming a side and
    what that side does at the start of the rally, stepped once per point. */
module Rotation {

  datatype Team = Home | Away

  datatype Role = Serves | Tosses

  /** One entry of the rotation, e.g. Slot(Away, Serves) for "Away Team Serves". */
  datatype Slot = Slot(team: Team, role: Role)

  /** The side that is not `t`. */
  function Other(t: Team): (r: Team)
    ensures r != t
  {
    if t == Home then Away else Home
  }

  /** The rotation in its fixed order. It is never changed. */
  const Sequences: seq<Slot> := [
    Slot(Home, Serves),
    Slot(Away, Tosses),
    Slot(Home, Tosses),
    Slot(Away, Serves),
    Slot(Home, Tosses),
    Slot(Away, Tosses)
  ]

  /** True when `i` indexes an entry of the rotation. */
  predicate InRing(i: int) {
    0 <= i < |Sequences|
  }

  /** The remainder of JavaScript's `a % |Sequences|`: it truncates toward
      zero, so its sign follows the dividend (Dafny's own `%` never goes
      negative). */
  function RingRem(a: int): (r: int)
    ensures -|Sequences| < r < |Sequences|
    ensures a >= 0 ==> r == a % |Sequences|
    ensures a <= 0 ==> r <= 0
    ensures (a - r) % |Sequences| == 0
  {
    if a >= 0 then a % |Sequences| else -((-a) % |Sequences|)
  }

  /** The position of the first entry equal to `x`, or -1 when there is none,
      as JavaScript's `Array.prototype.indexOf` answers. */
  function IndexOf(xs: seq<Slot>, x: Slot): (r: int)
    ensures r == -1 <==> x !in xs
    ensures r != -1 ==> 0 <= r < |xs| && xs[r] == x
    ensures forall j :: 0 <= j < r ==> xs[j] != x
  {
    if |xs| == 0 then -1
    else if xs[0] == x then 0
    else
      var k := IndexOf(xs[1..], x);
      if k == -1 then -1 else k + 1
  }

  /** Where the rotation restarts when the home side serves first. */
  function HomeServesIndex(): (r: int)
    ensures InRing(r) && Sequences[r] == Slot(Home, Serves)
    ensures forall j :: 0 <= j < r ==> Sequences[j] != Slot(Home, Serves)
  {
    IndexOf(Sequences, Slot(Home, Serves))
  }

  /** Where the rotation restarts when the away side serves first. */
  function AwayServesIndex(): (r: int)
    ensures InRing(r) && Sequences[r] == Slot(Away, Serves)
    ensures forall j :: 0 <= j < r ==> Sequences[j] != Slot(Away, Serves)
  {
    assert Sequences[3] == Slot(Away, Serves);
    IndexOf(Sequences, Slot(Away, Serves))
  }

  /** The first entry for each serving side sits at index 0 and index 3. */
  lemma ServeIndices()
    ensures HomeServesIndex() == 0
    ensures AwayServesIndex() == 3
  {
    assert Sequences[0] == Slot(Home, Serves);
    assert Sequences[1] != Slot(Away, Serves);
    assert Sequences[2] != Slot(Away, Serves);
  }

  /** One step of the rotation: the next index, wrapping after the last entry. */
  function Advance(i: int): (r: int)
    ensures 0 <= i ==> InRing(r)
    ensures InRing(i) && i + 1 < |Sequences| ==> r == i + 1
    ensures i == |Sequences| - 1 ==> r == 0
  {
    RingRem(i + 1)
  }

  /** `n` steps of the rotation from index `i`. */
  function AdvanceN(i: int, n: nat): int
  {
    if n == 0 then i else Advance(AdvanceN(i, n - 1))
  }

  /** Within one turn, `n` steps from index `i` land at i + n, wrapped once. */
  lemma {:induction false} AdvanceWithinTurn(i: int, n: nat)
    requires InRing(i) && n <= |Sequences|
    ensures AdvanceN(i, n) == if i + n < |Sequences| then i + n else i + n - |Sequences|
  {
    if n > 0 {
      AdvanceWithinTurn(i, n - 1);
    }
  }

  /** Stepping `m` then `n` times is stepping `m + n` times. */
  lemma {:induction false} AdvanceNAdds(i: int, m: nat, n: nat)
    ensures AdvanceN(AdvanceN(i, m), n) == AdvanceN(i, m + n)
  {
    if n > 0 {
      AdvanceNAdds(i, m, n - 1);
    }
  }

  /** Six steps bring the rotation back to where it started. */
  lemma SixStepsReturn(i: int)
    requires InRing(i)
    ensures AdvanceN(i, |Sequences|) == i
  {
    AdvanceWithinTurn(i, |Sequences|);
  }

  /** The six positions visited in one turn of the rotation are all different. */
  lemma SixStepsDistinct(i: int, j: nat, k: nat)
    requires InRing(i)
    requires j < k < |Sequences|
    ensures AdvanceN(i, j) != AdvanceN(i, k)
  {
    AdvanceWithinTurn(i, j);
    AdvanceWithinTurn(i, k);
  }

  /** From any index of the ring the rotation repeats with period six. */
  lemma {:induction false} RotationPeriodic(i: int, n: nat)
    requires InRing(i)
    ensures InRing(AdvanceN(i, n))
    ensures AdvanceN(i, n + |Sequences|) == AdvanceN(i, n)
  {
    if n > 0 {
      RotationPeriodic(i, n - 1);
    }
    AdvanceNAdds(i, n, |Sequences|);
    SixStepsReturn(AdvanceN(i, n));
  }

  /** Every step hands the rally start to the other side. */
  lemma StepAlternatesSides(i: int)
    requires InRing(i)
    ensures Sequences[Advance(i)].team == Other(Sequences[i].team)
  {
    if i < |Sequences| - 1 {
      assert Advance(i) == i + 1;
    } else {
      assert Advance(i) == 0;
    }
  }
}

=== FILE: scenarios.dfy ===
/** Concrete match situations: a set won 25-0 from a fresh page, a set decided
    from 24-24, and the rotation at the start of set 2. */
module Scenarios {
  import opened Wrappers
  import opened Rotation
  import opened Scoreboard

  /** `n` points in a row for `team`. */
  function ScoreTimes(s: MatchState, team: Team, n: nat): (r: MatchState)
    requires InRing(s.sequenceIndex)
    ensures InRing(r.sequenceIndex)
  {
    if n == 0 then s else Score(ScoreTimes(s, team, n - 1), team)
  }

  /** Up to 24 straight home points from a fresh page leave the set running:
      one log row and one rotation step per point. */
  lemma {:induction false} HomeRunBelowTwentyFive(n: nat)
    requires n <= 24
    ensures var r := ScoreTimes(Initial, Home, n);
      && r.homeScore == n && r.awayScore == 0
      && !r.isSetOver && r.winningTeam == None
      && r.homeSetsWon == 0 && r.awaySetsWon == 0
      && |r.sequenceHistory| == n && |r.actionHistory| == n
      && r.pointNumber == n + 1
      && r.sequenceIndex == AdvanceN(0, n)
      && r.homeTeam == DefaultHomeName
  {
    if n > 0 {
      HomeRunBelowTwentyFive(n - 1);
      RotationPeriodic(0, n - 1);
    }
  }

  /** The 25th straight home point wins the set for "Home Team"; the log then
      holds 25 point rows and the set-win row. */
  lemma HomeWinsTwentyFiveNil()
    ensures var r := ScoreTimes(Initial, Home, 25);
      && r.isSetOver
      && r.homeScore == 25 && r.awayScore == 0
      && r.homeSetsWon == 1 && r.awaySetsWon == 0
      && r.winningTeam == Some("Home Team")
      && |r.sequenceHistory| == 26
  {
    HomeRunBelowTwentyFive(24);
    var prev := ScoreTimes(Initial, Home, 24);
    assert !IsWinningScore(prev.homeScore, prev.awayScore);
    assert IsWinningScore(25, 0);
  }

  /** From 24-24 one point is not enough: 25-24 keeps the set running and
      26-24 ends it. */
  lemma DeuceNeedsTwoPointLead(s: MatchState, team: Team)
    requires !s.isSetOver && InRing(s.sequenceIndex)
    requires s.homeScore == 24 && s.awayScore == 24
    ensures !Score(s, team).isSetOver
    ensures Score(Score(s, team), team).isSetOver
    ensures Points(Score(Score(s, team), team), team) == 26
    ensures Points(Score(Score(s, team), team), Other(team)) == 24
  {
  }

  /** Leaving set 1 for set 2 clears the board and hands the first serve to
      the away side. */
  lemma SecondSetStartsWithAwayServe(s: MatchState)
    requires s.currentSet == 1
    ensures var r := StartNextSet(s);
      && r.currentSet == 2
      && r.homeScore == 0 && r.awayScore == 0
      && r.homeTimeoutsUsed == 0 && r.awayTimeoutsUsed == 0
      && r.sequenceIndex == 3
  {
    ServeIndices();
  }
}

=== FILE: scoreboard.dfy ===
/** The match state of the scoreboard and the operations the page performs on
    it: scoring a point (with the set rule), taking a time-out, undoing the last
    action, moving to the next set, choosing who serves in the third set,
    renaming the teams and resetting the match. Each operation is a pure
    function from the old state to the new one. */
module Scoreboard {
  import opened Wrappers
  import opened Rotation

  /** Time-outs each team may take per set. */
  const MaxTimeoutsPerSet: int := 2

  /** Points needed to win a set, with a lead of at least WinningLead. */
  const SetPoints: int := 25
  const WinningLead: int := 2

  const DefaultHomeName: string := "Home Team"
  const DefaultAwayName: string := "Away Team"
  const DefaultHomeColor: string := "#007bff"
  const DefaultAwayColor: string := "#28a745"

  /** What a row of the audit log records; its display text is left abstract. */
  datatype Outcome =
    | Scored(start: Slot, scorer: Team)        // a point, with the rotation slot it started from
    | WonSet(winner: Option<string>)           // the set-win announcement
    | TookTimeout(team: Team, count: int)      // a time-out, as "(count/2)"

  /** One row of the audit log. Set-win and time-out rows carry no point number. */
  datatype LogEntry = LogEntry(
    setNumber: int,
    pointNumber: Option<int>,
    outcome: Outcome,
    homeScore: int,
    awayScore: int)

  /** An undo record. A score record keeps what is needed to reverse the point:
      the rotation index and point number before it, the `isSetOver` value
      read after the set check ran, and whether the point won the set. */
  datatype Action =
    | ScoreAction(team: Team, value: int, sequenceIndex: int, pointNumber: int,
                  isSetOver: bool, setWon: bool)
    | TimeoutAction(team: Team, timeoutNumber: int)

  datatype MatchState = MatchState(
    homeTeam: string,
    awayTeam: string,
    homeColor: string,
    awayColor: string,
    homeScore: int,
    awayScore: int,
    homeSetsWon: int,
    awaySetsWon: int,
    currentSet: int,
    isSetOver: bool,
    sequenceIndex: int,
    sequenceHistory: seq<LogEntry>,
    actionHistory: seq<Action>,
    pointNumber: int,
    homeTimeoutsUsed: int,
    awayTimeoutsUsed: int,
    winningTeam: Option<string>)

  /** The state the page starts from. */
  const Initial: MatchState := MatchState(
    DefaultHomeName, DefaultAwayName, DefaultHomeColor, DefaultAwayColor,
    0, 0, 0, 0, 1, false, 0, [], [], 1, 0, 0, None)

  // Per-team views of the state.

  function Points(s: MatchState, t: Team): int {
    if t == Home then s.homeScore else s.awayScore
  }

  function SetsWon(s: MatchState, t: Team): int {
    if t == Home then s.homeSetsWon else s.awaySetsWon
  }

  function TimeoutsUsed(s: MatchState, t: Team): int {
    if t == Home then s.homeTimeoutsUsed else s.awayTimeoutsUsed
  }

  function Name(s: MatchState, t: Team): string {
    if t == Home then s.homeTeam else s.awayTeam
  }

  function Max(a: int, b: int): int { if a >= b then a else b }

  function Abs(a: int): int { if a >= 0 then a else -a }

  /** The set rule: some team has reached 25 points and leads by at least 2. */
  predicate IsWinningScore(home: int, away: int) {
    Max(home, away) >= SetPoints && Abs(home - away) >= WinningLead
  }

  /** The team ahead; only meaningful when the scores differ. */
  function Leader(home: int, away: int): Team {
    if home > away then Home else Away
  }

  /** The last element removed, or the sequence itself when it is empty
      (JavaScript's `pop` on an empty array changes nothing). */
  function DropLast<T>(xs: seq<T>): (r: seq<T>)
    ensures |xs| > 0 ==> |r| == |xs| - 1 && xs == r + [xs[|xs| - 1]]
    ensures |xs| == 0 ==> r == xs
  {
    if |xs| == 0 then xs else xs[..|xs| - 1]
  }

  /** The set check run after every point. When the set rule holds it ends the
      set, credits it to the team ahead and records that team's name as the
      winner; otherwise the state is untouched. The flag says whether the set
      was won. */
  function CheckSetWin(s: MatchState): (r: (MatchState, bool))
    ensures r.1 <==> IsWinningScore(s.homeScore, s.awayScore)
    ensures !r.1 ==> r.0 == s
    ensures r.1 ==>
      var w := Leader(s.homeScore, s.awayScore);
      && Points(s, w) > Points(s, Other(w))
      && r.0.isSetOver
      && r.0.winningTeam == Some(Name(s, w))
      && SetsWon(r.0, w) == SetsWon(s, w) + 1
      && SetsWon(r.0, Other(w)) == SetsWon(s, Other(w))
      && r.0.(isSetOver := s.isSetOver, winningTeam := s.winningTeam,
              homeSetsWon := s.homeSetsWon, awaySetsWon := s.awaySetsWon) == s
  {
    var home := s.homeScore;
    var away := s.awayScore;
    if (home >= 25 || away >= 25) && Abs(home - away) >= 2 then
      if home > away then
        (s.(isSetOver := true, homeSetsWon := s.homeSetsWon + 1, winningTeam := Some(s.homeTeam)), true)
      else
        (s.(isSetOver := true, awaySetsWon := s.awaySetsWon + 1, winningTeam := Some(s.awayTeam)), true)
    else
      (s, false)
  }

  /** Adds one point to team `t`. */
  function AddPoint(s: MatchState, t: Team): MatchState {
    if t == Home then s.(homeScore := s.homeScore + 1) else s.(awayScore := s.awayScore + 1)
  }

  /** Scoring a point for `team`. Ignored once the set is over. Otherwise the
      point is added, the set rule is checked, the point row (and a set-win row
      when the set was won) is logged, one undo record is pushed, the point
      number goes up by one and, unless the set just ended, the rotation moves
      one step. The rotation entry is read before anything changes, so the
      index must be in range whenever the set is still running. */
  function Score(s: MatchState, team: Team): (r: MatchState)
    requires s.isSetOver || InRing(s.sequenceIndex)
    ensures s.isSetOver ==> r == s
    ensures !s.isSetOver ==>
      && Points(r, team) == Points(s, team) + 1
      && Points(r, Other(team)) == Points(s, Other(team))
      && (r.isSetOver <==> IsWinningScore(r.homeScore, r.awayScore))
      && r.pointNumber == s.pointNumber + 1
      && |r.actionHistory| == |s.actionHistory| + 1
      && r.actionHistory[..|s.actionHistory|] == s.actionHistory
      && |r.sequenceHistory| == |s.sequenceHistory| + (if r.isSetOver then 2 else 1)
      && r.sequenceHistory[..|s.sequenceHistory|] == s.sequenceHistory
      && r.sequenceIndex == (if r.isSetOver then s.sequenceIndex else Advance(s.sequenceIndex))
      && InRing(r.sequenceIndex)
    ensures r.homeTeam == s.homeTeam && r.awayTeam == s.awayTeam
    ensures r.homeColor == s.homeColor && r.awayColor == s.awayColor
    ensures r.currentSet == s.currentSet
    ensures r.homeTimeoutsUsed == s.homeTimeoutsUsed && r.awayTimeoutsUsed == s.awayTimeoutsUsed
    ensures !r.isSetOver ==>
      r.homeSetsWon == s.homeSetsWon && r.awaySetsWon == s.awaySetsWon && r.winningTeam == s.winningTeam
    ensures !s.isSetOver && r.isSetOver ==>
      var w := Leader(r.homeScore, r.awayScore);
      && r.winningTeam == Some(Name(s, w))
      && SetsWon(r, w) == SetsWon(s, w) + 1
      && SetsWon(r, Other(w)) == SetsWon(s, Other(w))
  {
    if s.isSetOver then s
    else
      var start := Sequences[s.sequenceIndex];
      var scored := AddPoint(s, team);
      var checked := CheckSetWin(scored);
      var t := checked.0;
      var won := checked.1;
      assert Points(t, team) == Points(s, team) + 1 && Points(t, Other(team)) == Points(s, Other(team));
      var pointRow := LogEntry(s.currentSet, Some(s.pointNumber), Scored(start, team),
                               t.homeScore, t.awayScore);
      var winRow := LogEntry(s.currentSet, None, WonSet(t.winningTeam), t.homeScore, t.awayScore);
      var record := ScoreAction(team, 1, s.sequenceIndex, s.pointNumber, t.isSetOver, won);
      var logged := t.(
        sequenceHistory := t.sequenceHistory + [pointRow] + (if won then [winRow] else []),
        actionHistory := t.actionHistory + [record],
        pointNumber := t.pointNumber + 1);
      if !logged.isSetOver then logged.(sequenceIndex := Advance(logged.sequenceIndex))
      else logged
  }

  /** The rows a point logs: the point row carries the set number, the point
      number from before the point, the rotation slot the rally started from,
      the scorer and the score after the point; when the set ends it is
      followed by the set-win row naming the winner, which comes last. */
  lemma ScoreLogRows(s: MatchState, team: Team)
    requires !s.isSetOver && InRing(s.sequenceIndex)
    ensures var r := Score(s, team);
      && r.sequenceHistory[|s.sequenceHistory|]
           == LogEntry(s.currentSet, Some(s.pointNumber), Scored(Sequences[s.sequenceIndex], team),
                       r.homeScore, r.awayScore)
      && (r.isSetOver ==>
            r.sequenceHistory[|s.sequenceHistory| + 1]
              == LogEntry(s.currentSet, None, WonSet(r.winningTeam), r.homeScore, r.awayScore))
  {
  }

  /** Adds one to team `t`'s time-outs used. */
  function AddTimeout(s: MatchState, t: Team): MatchState {
    if t == Home then s.(homeTimeoutsUsed := s.homeTimeoutsUsed + 1)
    else s.(awayTimeoutsUsed := s.awayTimeoutsUsed + 1)
  }

  /** Taking a time-out for `team`. Ignored once the set is over; otherwise
      the team's count goes up by one, a time-out row carrying the new count is
      logged and an undo record is pushed. The handler does not check the
      per-set quota itself: only the disabled button does. */
  function Timeout(s: MatchState, team: Team): (r: MatchState)
    ensures s.isSetOver ==> r == s
    ensures !s.isSetOver ==>
      var k := TimeoutsUsed(r, team);
      && k == TimeoutsUsed(s, team) + 1
      && TimeoutsUsed(r, Other(team)) == TimeoutsUsed(s, Other(team))
      && r.sequenceHistory == s.sequenceHistory
           + [LogEntry(s.currentSet, None, TookTimeout(team, k), s.homeScore, s.awayScore)]
      && r.actionHistory == s.actionHistory + [TimeoutAction(team, k)]
      && r.(homeTimeoutsUsed := s.homeTimeoutsUsed, awayTimeoutsUsed := s.awayTimeoutsUsed,
            sequenceHistory := s.sequenceHistory, actionHistory := s.actionHistory) == s
  {
    if s.isSetOver then s
    else
      var t := AddTimeout(s, team);
      var k := TimeoutsUsed(t, team);
      t.(sequenceHistory := t.sequenceHistory
                              + [LogEntry(t.currentSet, None, TookTimeout(team, k), t.homeScore, t.awayScore)],
         actionHistory := t.actionHistory + [TimeoutAction(team, k)])
  }

  /** Reversing a score record. `isSetOver` is first set to the recorded value;
      the point is taken off, the rotation index restored and the point row
      dropped. If the point had won the set the set-win row is dropped too, the
      set count of whichever team's CURRENT name equals `winningTeam` goes down
      by one (neither, if no name matches), and the set is reopened. Last, the
      point number is restored. */
  function UndoScore(s: MatchState, a: Action): (r: MatchState)
    requires a.ScoreAction?
    ensures Points(r, a.team) == Points(s, a.team) - a.value
    ensures Points(r, Other(a.team)) == Points(s, Other(a.team))
    ensures r.sequenceIndex == a.sequenceIndex && r.pointNumber == a.pointNumber
    ensures r.isSetOver == (a.isSetOver && !a.setWon)
    ensures r.sequenceHistory == DropLast(if a.setWon then DropLast(s.sequenceHistory) else s.sequenceHistory)
    ensures !a.setWon ==>
              r.winningTeam == s.winningTeam && r.homeSetsWon == s.homeSetsWon && r.awaySetsWon == s.awaySetsWon
    ensures a.setWon ==> r.winningTeam == None
    ensures a.setWon && s.winningTeam == Some(s.homeTeam) ==>
              r.homeSetsWon == s.homeSetsWon - 1 && r.awaySetsWon == s.awaySetsWon
    ensures a.setWon && s.winningTeam == Some(s.awayTeam) && s.homeTeam != s.awayTeam ==>
              r.awaySetsWon == s.awaySetsWon - 1 && r.homeSetsWon == s.homeSetsWon
    ensures a.setWon && s.winningTeam != Some(s.homeTeam) && s.winningTeam != Some(s.awayTeam) ==>
              r.homeSetsWon == s.homeSetsWon && r.awaySetsWon == s.awaySetsWon
    ensures r.actionHistory == s.actionHistory
    ensures r.(homeScore := s.homeScore, awayScore := s.awayScore, homeSetsWon := s.homeSetsWon,
               awaySetsWon := s.awaySetsWon, isSetOver := s.isSetOver, sequenceIndex := s.sequenceIndex,
               sequenceHistory := s.sequenceHistory, pointNumber := s.pointNumber,
               winningTeam := s.winningTeam) == s
  {
    var s1 := s.(isSetOver := a.isSetOver);
    var s2 := if a.team == Home then s1.(homeScore := s1.homeScore - a.value)
              else s1.(awayScore := s1.awayScore - a.value);
    var s3 := s2.(sequenceIndex := a.sequenceIndex, sequenceHistory := DropLast(s2.sequenceHistory));
    var s4 :=
      if a.setWon then
        var s5 := s3.(sequenceHistory := DropLast(s3.sequenceHistory));
        var s6 :=
          if s5.winningTeam == Some(s5.homeTeam) then s5.(homeSetsWon := s5.homeSetsWon - 1)
          else if s5.winningTeam == Some(s5.awayTeam) then s5.(awaySetsWon := s5.awaySetsWon - 1)
          else s5;
        s6.(isSetOver := false, winningTeam := None)
      else s3;
    s4.(pointNumber := a.pointNumber)
  }

  /** Reversing a time-out record: the time-out row is dropped and the team's
      count goes down by one. */
  function UndoTimeout(s: MatchState, a: Action): (r: MatchState)
    requires a.TimeoutAction?
    ensures TimeoutsUsed(r, a.team) == TimeoutsUsed(s, a.team) - 1
    ensures TimeoutsUsed(r, Other(a.team)) == TimeoutsUsed(s, Other(a.team))
    ensures r.sequenceHistory == DropLast(s.sequenceHistory)
    ensures r.(homeTimeoutsUsed := s.homeTimeoutsUsed, awayTimeoutsUsed := s.awayTimeoutsUsed,
               sequenceHistory := s.sequenceHistory) == s
  {
    var s1 := s.(sequenceHistory := DropLast(s.sequenceHistory));
    if a.team == Home then s1.(homeTimeoutsUsed := s1.homeTimeoutsUsed - 1)
    else s1.(awayTimeoutsUsed := s1.awayTimeoutsUsed - 1)
  }

  /** Undoing the last action: nothing happens when there is none; otherwise the
      most recent undo record is popped and reversed. */
  function Undo(s: MatchState): (r: MatchState)
    ensures |s.actionHistory| == 0 ==> r == s
    ensures |s.actionHistory| > 0 ==> r.actionHistory == DropLast(s.actionHistory)
  {
    if |s.actionHistory| == 0 then s
    else
      var a := s.actionHistory[|s.actionHistory| - 1];
      var popped := s.(actionHistory := DropLast(s.actionHistory));
      match a
      case ScoreAction(_, _, _, _, _, _) => UndoScore(popped, a)
      case TimeoutAction(_, _) => UndoTimeout(popped, a)
  }

  /** Moving to the next set: the set number goes up, both scores and time-out
      counts go back to zero, the undo stack is emptied, the point number
      restarts at 1 and the set is reopened. The away side serves first in set
      2; set 3 keeps the index until the serve choice is made; every later set
      starts with the home side serving. The audit log and set counts carry
      over. */
  function StartNextSet(s: MatchState): (r: MatchState)
    ensures r.currentSet == s.currentSet + 1
    ensures r.homeScore == 0 && r.awayScore == 0
    ensures r.homeTimeoutsUsed == 0 && r.awayTimeoutsUsed == 0
    ensures r.actionHistory == [] && r.pointNumber == 1
    ensures !r.isSetOver && r.winningTeam == None
    ensures r.currentSet == 2 ==> InRing(r.sequenceIndex) && Sequences[r.sequenceIndex] == Slot(Away, Serves)
    ensures r.currentSet == 3 ==> r.sequenceIndex == s.sequenceIndex
    ensures r.currentSet != 2 && r.currentSet != 3 ==>
              InRing(r.sequenceIndex) && Sequences[r.sequenceIndex] == Slot(Home, Serves)
    ensures r.sequenceHistory == s.sequenceHistory
    ensures r.homeSetsWon == s.homeSetsWon && r.awaySetsWon == s.awaySetsWon
    ensures r.homeTeam == s.homeTeam && r.awayTeam == s.awayTeam
    ensures r.homeColor == s.homeColor && r.awayColor == s.awayColor
  {
    var t := s.(currentSet := s.currentSet + 1, homeScore := 0, awayScore := 0, isSetOver := false,
                pointNumber := 1, winningTeam := None, actionHistory := [],
                homeTimeoutsUsed := 0, awayTimeoutsUsed := 0);
    if t.currentSet == 2 then t.(sequenceIndex := AwayServesIndex())
    else if t.currentSet == 3 then t
    else t.(sequenceIndex := HomeServesIndex())
  }

  /** The answers of the third-set serve dialog: a side picked, or the dialog
      dismissed by a click beside it. */
  datatype ServeChoice = HomePicked | AwayPicked | Dismissed

  /** The side that serves first for a dialog answer; dismissing means home. */
  function FirstServer(c: ServeChoice): Team {
    if c == AwayPicked then Away else Home
  }

  /** Answering the serve dialog: the rotation restarts at the first entry in
      which the chosen side serves. Nothing else changes. */
  function ChooseServe(s: MatchState, c: ServeChoice): (r: MatchState)
    ensures InRing(r.sequenceIndex)
    ensures Sequences[r.sequenceIndex] == Slot(FirstServer(c), Serves)
    ensures forall j :: 0 <= j < r.sequenceIndex ==> Sequences[j] != Slot(FirstServer(c), Serves)
    ensures r.(sequenceIndex := s.sequenceIndex) == s
  {
    match c
    case HomePicked => s.(sequenceIndex := HomeServesIndex())
    case AwayPicked => s.(sequenceIndex := AwayServesIndex())
    case Dismissed => s.(sequenceIndex := HomeServesIndex())
  }

  /** A form field's value, or `default` when the field is empty. */
  function OrDefault(input: string, default: string): (r: string)
    ensures input != "" ==> r == input
    ensures input == "" ==> r == default
  {
    if input == "" then default else input
  }

  /** Submitting the team form: empty names fall back to "Home Team" and
      "Away Team", empty colours to the default colours. Scores, sets, the
      rotation and both histories are untouched. */
  function SetTeamNames(s: MatchState, homeName: string, awayName: string,
                        homeColor: string, awayColor: string): (r: MatchState)
    ensures r.homeTeam != "" && r.awayTeam != ""
    ensures homeName != "" ==> r.homeTeam == homeName
    ensures awayName != "" ==> r.awayTeam == awayName
    ensures homeName == "" ==> r.homeTeam == DefaultHomeName
    ensures awayName == "" ==> r.awayTeam == DefaultAwayName
    ensures homeColor != "" ==> r.homeColor == homeColor
    ensures awayColor != "" ==> r.awayColor == awayColor
    ensures homeColor == "" ==> r.homeColor == DefaultHomeColor
    ensures awayColor == "" ==> r.awayColor == DefaultAwayColor
    ensures r.(homeTeam := s.homeTeam, awayTeam := s.awayTeam,
               homeColor := s.homeColor, awayColor := s.awayColor) == s
  {
    s.(homeTeam := OrDefault(homeName, DefaultHomeName),
       awayTeam := OrDefault(awayName, DefaultAwayName),
       homeColor := OrDefault(homeColor, DefaultHomeColor),
       awayColor := OrDefault(awayColor, DefaultAwayColor))
  }

  /** Resetting the match: the whole state is replaced by the start-up value,
      whatever it was before. */
  function Reset(s: MatchState): (r: MatchState)
    ensures r == Initial
  {
    MatchState(
      homeTeam := "Home Team", awayTeam := "Away Team",
      homeColor := "#007bff", awayColor := "#28a745",
      homeScore := 0, awayScore := 0, homeSetsWon := 0, awaySetsWon := 0,
      currentSet := 1, isSetOver := false, sequenceIndex := 0,
      sequenceHistory := [], actionHistory := [], pointNumber := 1,
      homeTimeoutsUsed := 0, awayTimeoutsUsed := 0, winningTeam := None)
  }
}

=== FILE: undo_laws.dfy ===
/** How undo relates to scoring and time-outs: it reverses the last one
    exactly, under the conditions the page's name-based bookkeeping needs,
    and what it does when those conditions fail. */
module UndoLaws {
  import opened Wrappers
  import opened Rotation
  import opened Scoreboard

  /** A point that ends the set credits it to the team that scored, provided the
      set rule did not already hold before the point. */
  lemma ClinchingPointGoesToScorer(s: MatchState, team: Team)
    requires !s.isSetOver && InRing(s.sequenceIndex)
    requires !IsWinningScore(s.homeScore, s.awayScore)
    ensures var r := Score(s, team);
      r.isSetOver ==>
        && r.winningTeam == Some(Name(s, team))
        && SetsWon(r, team) == SetsWon(s, team) + 1
        && SetsWon(r, Other(team)) == SetsWon(s, Other(team))
        && r.sequenceHistory[|r.sequenceHistory| - 1].outcome == WonSet(Some(Name(s, team)))
  {
    var r := Score(s, team);
    var checked := CheckSetWin(AddPoint(s, team));
    if r.isSetOver {
      assert checked.1;
      assert Leader(Points(AddPoint(s, team), Home), Points(AddPoint(s, team), Away)) == team;
    }
  }

  /** The undo record a point pushes. Its `isSetOver` flag is read after the
      set check, so it equals the `setWon` flag: both are true exactly for the
      point that ends the set. */
  lemma ScorePushesRecord(s: MatchState, team: Team)
    requires !s.isSetOver && InRing(s.sequenceIndex)
    ensures var r := Score(s, team);
      r.actionHistory
        == s.actionHistory
           + [ScoreAction(team, 1, s.sequenceIndex, s.pointNumber, r.isSetOver, r.isSetOver)]
  {
    var checked := CheckSetWin(AddPoint(s, team));
    assert checked.0.isSetOver == checked.1;
  }

  /** Undo reverses a point that leaves the set running. */
  lemma UndoInvertsRunningPoint(s: MatchState, team: Team)
    requires !s.isSetOver && InRing(s.sequenceIndex)
    requires !IsWinningScore(Points(AddPoint(s, team), Home), Points(AddPoint(s, team), Away))
    ensures Undo(Score(s, team)) == s
  {
    var r := Score(s, team);
    var a := ScoreAction(team, 1, s.sequenceIndex, s.pointNumber, false, false);
    ScorePushesRecord(s, team);
    var popped := r.(actionHistory := s.actionHistory);
    assert Undo(r) == UndoScore(popped, a);
  }

  /** Undo reverses a set-winning point: both log rows go, the winner's set
      count drops back and the set reopens with no winner. */
  lemma UndoInvertsClinchingPoint(s: MatchState, team: Team)
    requires !s.isSetOver && InRing(s.sequenceIndex)
    requires s.winningTeam == None
    requires s.homeTeam != s.awayTeam
    requires IsWinningScore(Points(AddPoint(s, team), Home), Points(AddPoint(s, team), Away))
    ensures Undo(Score(s, team)) == s
  {
    var r := Score(s, team);
    var a := ScoreAction(team, 1, s.sequenceIndex, s.pointNumber, true, true);
    ScorePushesRecord(s, team);
    var popped := r.(actionHistory := s.actionHistory);
    assert Undo(r) == UndoScore(popped, a);
    var u := UndoScore(popped, a);
    var w := Leader(Points(AddPoint(s, team), Home), Points(AddPoint(s, team), Away));
    assert popped.winningTeam == Some(Name(s, w));
    assert SetsWon(u, w) == SetsWon(s, w);
    assert SetsWon(u, Other(w)) == SetsWon(s, Other(w));
  }

  /** Undo reverses a point exactly: every field, including the rotation index,
      the point number, the audit log, the set counts, `isSetOver` and
      `winningTeam`. A set-winning point takes two log rows with it. The team
      names must differ and must not change in between, because undo finds the
      team to debit by comparing `winningTeam` with the names. */
  lemma UndoInvertsScore(s: MatchState, team: Team)
    requires !s.isSetOver && InRing(s.sequenceIndex)
    requires s.winningTeam == None
    requires s.homeTeam != s.awayTeam
    ensures Undo(Score(s, team)) == s
    ensures Score(s, team).isSetOver ==>
      |Score(s, team).sequenceHistory| == |s.sequenceHistory| + 2
  {
    if IsWinningScore(Points(AddPoint(s, team), Home), Points(AddPoint(s, team), Away)) {
      UndoInvertsClinchingPoint(s, team);
    } else {
      UndoInvertsRunningPoint(s, team);
    }
  }

  /** Undo reverses a time-out exactly. */
  lemma UndoInvertsTimeout(s: MatchState, team: Team)
    requires !s.isSetOver
    ensures Undo(Timeout(s, team)) == s
  {
    var r := Timeout(s, team);
    assert r.actionHistory[|r.actionHistory| - 1] == TimeoutAction(team, TimeoutsUsed(r, team));
  }

  /** With both teams under the same name, undoing the away team's set-winning
      point takes the set from the home team instead and leaves the away team's
      credit in place. */
  lemma UndoWithSharedNameDebitsHome(s: MatchState)
    requires !s.isSetOver && InRing(s.sequenceIndex) && s.winningTeam == None
    requires s.homeTeam == s.awayTeam
    requires s.awayScore >= 24 && s.awayScore >= s.homeScore + 1
    ensures Score(s, Away).isSetOver
    ensures Undo(Score(s, Away)).homeSetsWon == s.homeSetsWon - 1
    ensures Undo(Score(s, Away)).awaySetsWon == s.awaySetsWon + 1
  {
    var r := Score(s, Away);
    assert IsWinningScore(r.homeScore, r.awayScore);
    assert r.actionHistory[|r.actionHistory| - 1].setWon;
  }

  /** Renaming both teams after a set-winning point, to names other than the
      recorded winner, makes a later undo reopen the set without taking the set
      back from anyone. */
  lemma UndoAfterRenameKeepsSet(s: MatchState, team: Team, home: string, away: string,
                                homeColor: string, awayColor: string)
    requires !s.isSetOver && InRing(s.sequenceIndex)
    requires Score(s, team).isSetOver
    requires home != "" && away != ""
    requires Score(s, team).winningTeam != Some(home) && Score(s, team).winningTeam != Some(away)
    ensures var u := Undo(SetTeamNames(Score(s, team), home, away, homeColor, awayColor));
      && !u.isSetOver
      && u.homeSetsWon + u.awaySetsWon == s.homeSetsWon + s.awaySetsWon + 1
  {
    var r := Score(s, team);
    var n := SetTeamNames(r, home, away, homeColor, awayColor);
    var checked := CheckSetWin(AddPoint(s, team));
    assert checked.1;
    assert n.actionHistory[|n.actionHistory| - 1].setWon;
  }
}

=== FILE: wrappers.dfy ===
/** The optional value used where the scoreboard stores `null` (no winning team,
    no point number on a set-win or time-out row). */
module Wrappers {

  datatype Option<+T> = None | Some(value: T)
}
